=== FILE: README.md ===
# Children's content app: generation pipeline and session stores in Dafny

This project models the small amount of sequential logic in a children's content web
application. The rest of the application is presentation and calls to remote services.
The logic covered here:

- **Provider choice.** Story and activity generation pick one text provider from the
  configured keys. OpenAI is used when its key is set, otherwise Anthropic, otherwise
  the call fails. Any failure is replaced by a locally built placeholder.
- **Images.** Covers and illustrations resolve to a stock photograph, or to an inline
  PNG built from the image provider's artifact.
- **Default content.** Each of the eight activity kinds has a fixed default content
  object.
- **Stores as transitions.** The content store (`stories`, `activities`,
  `isGenerating`, `error`) and the donation store (`donations`, `isLoading`, `error`)
  are modelled as pure transition functions.
- **Records from forms.** The donation form and the manual-activity dialog each build
  one record from their form.

Everything the code cannot see is a parameter:

- every provider, image and database call is an oracle `Result<_, Exception>`;
- `crypto.randomUUID()` and `new Date()` are a fresh `id` and `now`;
- `parseInt` and `parseFloat` are functions `string -> Option<int>`;
- the environment's API keys are a `Credentials` value, where an unset key and an
  empty one are both `""`.

Modules, one per source file, plus three shared helpers:

| module | file |
|---|---|
| `Wrappers` | `wrappers.dfy`: `Option`, `Result` |
| `Text` | `text.dfy`: infix search, first-letter case, digits |
| `Types` | `types.dfy`: the records and enumerations of `project/src/types/index.ts` |
| `Providers` | `providers.dfy`: provider choice and image locators shared by both services |
| `StoryService` | `story_service.dfy` |
| `ActivityService` | `activity_service.dfy` |
| `ContentStore` | `content_store.dfy` |
| `DonationStore` | `donation_store.dfy` |
| `DonationCenter` | `donation_center.dfy` |
| `ManualActivityCreator` | `manual_activity_creator.dfy` |

Notes on the modelling:

- A story's `category` and `ageGroup` are kept as plain strings rather than their declared enumerations.
  The services copy the provider's category unchecked. They also cast the request's
  free-text age group to the three-valued type without checking. `Types.WellFormedStory`
  states the declared type, and `StoryService.GeneratedStoryWellFormedIff` says exactly
  when a generated story satisfies it.
- An activity's `content` is whatever the provider's parsed JSON holds. It may be absent
  (`undefined` or `null`), a primitive value (a string, number or boolean), or an object
  with kind-specific fields and an optional `imageUrl`. Setting `content.imageUrl` throws
  unless the content is an object, because modules run in strict mode. The store's inner
  `try` catches that, so the activity is published with its content as it was and no image.
- The comment at `project/src/services/storyService.ts:101` reads "fallback to Anthropic".
  In fact a failed OpenAI call goes straight to the placeholder; Anthropic is used only
  when no OpenAI key is set. The model follows the code
  (`StoryService.NoCrossProviderRetry`, `ActivityService.NoCrossProviderRetry`).
- The generation services and the image functions never reject. So the failure branch of
  the store's `generateStory`/`generateActivity` cannot be reached from those actions.
  That branch is modelled on its own (`SettleStory`, `SettleActivity`). The composed
  actions are proved to always resolve and to leave `error` empty.

## Model

| member | source | states |
|---|---|---|
| `Types.CategoryNameRoundTrip` | project/src/types/index.ts:14 | the four category names and their parser are mutually inverse |
| `Types.AgeGroupNameRoundTrip` | project/src/types/index.ts:15 | the three age-bracket names and their parser are mutually inverse |
| `Types.KindNamesAreDistinctLowerWords` | project/src/types/index.ts:39 | each of the eight kind names starts with a lower-case letter and names only its own kind |
| `Providers.SelectProvider` | project/src/services/storyService.ts:101-108 | OpenAI is chosen iff its key is set; Anthropic iff it is the only key set; no provider iff neither key is set |
| `Providers.ProviderAttempt` | project/src/services/storyService.ts:100-108 | the generation's `try` body yields exactly the selected provider's outcome, or the "No API keys configured" error when no key is set |
| `Providers.ImageLocator` | project/src/services/storyService.ts:128-164 | an image resolves to an inline PNG carrying exactly the returned artifact iff a key is set and the call succeeds; otherwise it is the stock photograph |
| `StoryService.MaxTokens` | project/src/services/storyService.ts:33 | the token budget is 800 for "short", 1200 for "medium" and 2000 for "long" |
| `StoryService.WordRangeText` | project/src/services/storyService.ts:27 | the requested word range is "200-400" for "short", "400-800" for "medium" and "800-1200" for "long" |
| `StoryService.OpenAiStoryCall` | project/src/services/storyService.ts:15-33 | the OpenAI request, built from its own comparisons of the length name, uses model "gpt-4" and the budget and word range the length selects |
| `StoryService.AnthropicStoryCall` | project/src/services/storyService.ts:65-74 | the Anthropic request, built from its own comparisons, uses model "claude-3-sonnet-20240229" and the same budget and word range as OpenAI's |
| `StoryService.FromPayload` | project/src/services/storyService.ts:44-53 | a provider story copies title, content, category and reading time from the reply; it takes age group and life lesson from the request |
| `StoryService.Placeholder` | project/src/services/storyService.ts:113-122 | the placeholder title is "The Magical Adventure of " followed by the theme; its text contains the life lesson; it is a 5-minute "adventure" with the request's age group and lesson |
| `StoryService.GenerateStory` | project/src/services/storyService.ts:99-124 | the selected provider's success gives its normalised story; its failure, or no key, gives the placeholder |
| `StoryService.GeneratedStoryKeepsRequestFields` | project/src/services/storyService.ts:44-122 | on every path the story carries the request's age group and life lesson and has no cover or audio yet |
| `StoryService.NoCrossProviderRetry` | project/src/services/storyService.ts:101-123 | with the OpenAI key set, the Anthropic outcome never matters, and an OpenAI failure yields the placeholder |
| `StoryService.GeneratedStoryWellFormedIff` | project/src/services/storyService.ts:49 | a generated story has its declared type iff the request's age group is a valid bracket and, on the provider path, the reply's category is valid |
| `StoryService.GeneratedStoryTitleAndTimeIff` | project/src/services/storyService.ts:44-122 | a generated story has a non-empty title and a positive reading time iff it is the placeholder or the provider's reply has both; reply values are copied unchecked |
| `StoryService.NoKeysGivesPlaceholder` | project/src/services/storyService.ts:105-122 | with no key, the story has a valid category and reading time 5; its title contains the theme and its text the life lesson |
| `StoryService.CoverImage` | project/src/services/storyService.ts:126-165 | never fails: stock photograph without a key or on failure, otherwise the artifact inlined |
| `ActivityService.MockContent` | project/src/services/activityService.ts:124-162 | every one of the eight kinds has a content object of its own shape; exactly coloring, puzzle and paint-by-numbers carry the stock image |
| `ActivityService.MockMathAnswersAreCorrect` | project/src/services/activityService.ts:130-136 | the default math content is three problems, and each answer equals the value of its question |
| `ActivityService.MockPuzzleAndLetters` | project/src/services/activityService.ts:137-144 | the default puzzle has 12 pieces; each default letter begins the word listed with it |
| `ActivityService.FromPayload` | project/src/services/activityService.ts:45-54 | a provider activity takes kind, difficulty and age group from the request, and title, instructions and content from the reply |
| `ActivityService.PlaceholderTitle` | project/src/services/activityService.ts:113 | the placeholder title starts with a capital and ends in " Adventure"; lower-casing the first letter of what precedes the suffix gives the kind name back |
| `ActivityService.PlaceholderTitleNamesKind` | project/src/services/activityService.ts:113 | distinct kinds get distinct placeholder titles |
| `ActivityService.MathPlaceholderTitle` | project/src/services/activityService.ts:113 | the math placeholder title is "Math Adventure" |
| `ActivityService.Placeholder` | project/src/services/activityService.ts:111-119 | the placeholder keeps the request's kind, difficulty and age group; its instructions mention the kind; its content is the kind's default |
| `ActivityService.GenerateActivity` | project/src/services/activityService.ts:98-122 | the selected provider's success gives its normalised activity; its failure, or no key, gives the placeholder |
| `ActivityService.GeneratedActivityKeepsRequestFields` | project/src/services/activityService.ts:45-119 | on every path the activity has the request's kind, difficulty and age group |
| `ActivityService.GeneratedActivityTitleIff` | project/src/services/activityService.ts:45-119 | a generated activity has a non-empty title iff it is the placeholder or the provider's reply has one |
| `ActivityService.NoCrossProviderRetry` | project/src/services/activityService.ts:100-120 | with the OpenAI key set, the Anthropic outcome never matters, and an OpenAI failure yields the placeholder |
| `ActivityService.NoKeysMathActivity` | project/src/services/activityService.ts:111-136 | a math activity with no key is "Math Adventure" with three correctly answered problems |
| `ActivityService.ActivityImage` | project/src/services/activityService.ts:164-203 | never fails: stock photograph without a key or on failure, otherwise the artifact inlined |
| `ContentStore.BeginGeneration` | project/src/stores/contentStore.ts:28 | starting a generation sets the busy flag, clears the error and keeps both lists |
| `ContentStore.SettleStory` | project/src/stores/contentStore.ts:49-61 | success prepends the story; failure records the message or "Failed to generate story" and keeps the lists; either way the store ends idle and the outcome is passed on |
| `ContentStore.SettleActivity` | project/src/stores/contentStore.ts:88-100 | the same for activities, with default "Failed to generate activity" |
| `ContentStore.StoryPipeline` | project/src/stores/contentStore.ts:31-39 | attaching the cover changes only `coverImage`, which is always set |
| `ContentStore.GenerateStory` | project/src/stores/contentStore.ts:27-62 | the action always resolves with the story it prepends; the store ends idle with no error and activities unchanged |
| `ContentStore.StorySaveFailureIsSwallowed` | project/src/stores/contentStore.ts:41-47 | a failed save gives the same final store and result as a successful one |
| `ContentStore.Illustrate` | project/src/stores/contentStore.ts:70-78 | only coloring, drawing and paint-by-numbers are touched, and only their content's `imageUrl`; content that is absent or a primitive value stays as it was, since the assignment throws and is caught |
| `ContentStore.ActivityPipeline` | project/src/stores/contentStore.ts:68-78 | the published activity differs from the service's at most in its content |
| `ContentStore.GenerateActivity` | project/src/stores/contentStore.ts:64-101 | the action always resolves with the activity it prepends; the store ends idle with no error and stories unchanged |
| `ContentStore.ActivitySaveFailureIsSwallowed` | project/src/stores/contentStore.ts:80-86 | a failed save gives the same final store and result as a successful one |
| `ContentStore.PublishedActivityFields` | project/src/stores/contentStore.ts:68-77 | the published activity keeps the request's kind, difficulty and age group; a visual one made with no key has the default content plus the illustration |
| `ContentStore.TwoGenerationsWithoutKeys` | project/src/stores/contentStore.ts:64-101 | two generations with no key add two placeholders, the later request first, and leave the store idle |
| `ContentStore.TwoGenerationsFromInitial` | project/src/stores/contentStore.ts:21-25 | from the store's initial state (no content, idle, no error), two keyless generations leave exactly two activities, the later first, and no stories |
| `ContentStore.LoadUserContent` | project/src/stores/contentStore.ts:103-115 | both lists are replaced when both loads succeed; otherwise they are kept and the error is "Failed to load your content"; the busy flag is untouched |
| `ContentStore.AddStory` | project/src/stores/contentStore.ts:117-121 | the story is at index 0, the old ones shifted by one, nothing else changed |
| `ContentStore.AddActivity` | project/src/stores/contentStore.ts:123-127 | the activity is at index 0, the old ones shifted by one, nothing else changed |
| `ContentStore.ClearError` | project/src/stores/contentStore.ts:129-131 | only the error changes, to none |
| `DonationStore.BeginRequest` | project/src/stores/donationStore.ts:21 | starting a create or load sets the busy flag, clears the error and keeps the list |
| `DonationStore.CreateDonation` | project/src/stores/donationStore.ts:20-40 | success prepends the stored donation with no error; failure records the message or "Failed to create donation" and keeps the list; it ends idle and passes the outcome on |
| `DonationStore.CreateDonationPrependsOne` | project/src/stores/donationStore.ts:26-31 | a successful create grows the list by one, with the new donation first and the rest shifted |
| `DonationStore.FirstDonationFromInitial` | project/src/stores/donationStore.ts:15-18 | in the store's initial state (empty list, idle, no error), a successful create leaves exactly the stored donation in the list |
| `DonationStore.LoadDonations` | project/src/stores/donationStore.ts:42-54 | success replaces the list; failure keeps it and records "Failed to load donations"; it never rejects and ends idle |
| `DonationStore.ClearError` | project/src/stores/donationStore.ts:56-58 | only the error changes, to none |
| `DonationCenter.QuantityOrOne` | project/src/components/features/DonationCenter.tsx:34 | the quantity is never zero; it is the parsed number when that is a non-zero number, and 1 when the text does not parse or parses to 0 |
| `DonationCenter.AmountOrZero` | project/src/components/features/DonationCenter.tsx:35 | the amount is the parsed number, or 0 when the text does not parse |
| `DonationCenter.BuildDonation` | project/src/components/features/DonationCenter.tsx:29-37 | the text fields are copied; quantity is set iff the kind is not monetary and amount iff it is, never both; status is pending; the quantity is the parsed number, or 1 when that is missing or 0; the amount is the parsed number, or 0 when the text does not parse |
| `DonationCenter.HandleSubmit` | project/src/components/features/DonationCenter.tsx:23-53 | an empty required field changes nothing; otherwise the built record goes to the store; only a successful insert clears the form and sets `submitted`; `isSubmitting` ends false |
| `DonationCenter.SubmittedDonationIsPending` | project/src/components/features/DonationCenter.tsx:25-47 | a successful submission inserts a pending record with at most one of quantity and amount, and the stored donation heads the store's list |
| `ManualActivityCreator.DefaultContent` | project/src/components/features/ManualActivityCreator.tsx:69-107 | every one of the eight kinds has a default content object of its own shape; exactly coloring, puzzle and paint-by-numbers carry the stock image |
| `ManualActivityCreator.DefaultContentMatchesMockContent` | project/src/components/features/ManualActivityCreator.tsx:69-106 | the dialog's default content equals the generation service's default content for every kind |
| `ManualActivityCreator.NewActivity` | project/src/components/features/ManualActivityCreator.tsx:39-48 | the new activity copies title, kind, difficulty, age group and instructions from the form; its content is the kind's default |
| `ManualActivityCreator.HandleCreate` | project/src/components/features/ManualActivityCreator.tsx:33-67 | an empty title or instructions changes nothing; otherwise exactly one activity from the form is prepended, nothing else in the store changes, the form resets and the dialog closes |

## Left out

- HTTP calls to OpenAI, Anthropic and Stability, and the parsing of their JSON replies. Each is an oracle outcome. Prompt text other than the length-dependent numbers is not modelled, and neither are temperature, guidance scale, image size or step count (floating point or presentation only).
- The activity completion budget (a fixed 1000 tokens for both providers). It does not depend on the request.
- `project/src/services/databaseService.ts` and `project/src/lib/supabase.ts`. They are thin wrappers over the hosted database client, so the save, load and insert calls are oracles. The saved copy returned by `saveStory`/`saveActivity` is discarded by the store, and so is not modelled.
- `project/src/services/voiceService.ts`. It is a network wrapper for voice cloning and speech, and the core does not use it.
- Identifiers and timestamps: they are fresh parameters, with no arithmetic on them.
- `parseInt`/`parseFloat` semantics and floating-point amounts. Parsing is an abstract partial function, and amounts are integers. A negative parsed quantity is kept as it is, as in the source.
- StoryService.FromPayload and ActivityService.FromPayload: a provider reply's fields are taken with their declared types, so titles, text and category are strings and the reading time is an integer. A reply whose field is missing, not a string, or a fractional or string reading time is not represented, although the source publishes such values unchecked. `GeneratedStoryTitleAndTimeIff` and `GeneratedActivityTitleIff` therefore speak only of well-typed replies.
- Interleaving of overlapping asynchronous store actions. For example, one call's completion can clear the shared busy flag while another is still running. Each action is one atomic transition.
- UI components and form state other than the two submit handlers. That includes the story form's non-empty guard on theme and life lesson, so the store's `generateStory` is modelled for every request.
- The donation lifecycle pending → approved → distributed. No code in the core advances a donation's status.
- Logging to the console on caught errors.

=== FILE: activity_service.dfy ===
/** Activity generation: the same key-driven provider choice as for stories,
    normalisation of a provider reply, the per-kind default content, the local
    placeholder activity, and the activity illustration. */
module ActivityService {
  import opened Wrappers
  import opened Text
  import opened Types
  import opened Providers

  // ---------------------------------------------------------------------------
  // Default content per kind
  // ---------------------------------------------------------------------------

  /** The body shape that belongs to each kind of activity. */
  predicate BodyFitsKind(k: ActivityKind, body: Payload) {
    match k
    case Coloring => body.Palette?
    case Puzzle => body.Jigsaw?
    case Drawing => body.DrawingPrompt?
    case Math => body.Problems?
    case Letters => body.Alphabet?
    case Words => body.Vocabulary?
    case Dictation => body.Sentences?
    case PaintByNumbers => body.ColorByNumber?
  }

  const MathProblems: seq<Problem> :=
    [Problem("2 + 3 = ?", 5), Problem("5 - 2 = ?", 3), Problem("4 + 1 = ?", 5)]

  const AlphabetLetters: seq<string> := ["A", "B", "C", "D", "E"]

  const AlphabetWords: seq<string> := ["Apple", "Ball", "Cat", "Dog", "Elephant"]

  /** `ActivityService.getMockContent`: a fresh content object for each of the
      eight kinds.  The table covers every kind, so the `|| {}` fallback of the
      source never applies. */
  function MockContent(k: ActivityKind): (c: Content)
    ensures c.Object? && BodyFitsKind(k, c.body)
    ensures c.imageUrl.Some? <==> k in {Coloring, Puzzle, PaintByNumbers}
    ensures c.imageUrl.Some? ==> c.imageUrl.value == StockImageUrl
  {
    match k
    case Coloring => Object(Palette(["red", "blue", "yellow", "green", "purple", "orange"]), Some(StockImageUrl))
    case Math => Object(Problems(MathProblems), None)
    case Letters => Object(Alphabet(AlphabetLetters, AlphabetWords), None)
    case Puzzle => Object(Jigsaw(12), Some(StockImageUrl))
    case Drawing => Object(DrawingPrompt("Draw your favorite animal", ["pencil", "crayon", "marker"]), None)
    case Words => Object(Vocabulary(["happy", "sunny", "friend", "play", "learn"]), None)
    case Dictation => Object(Sentences(["The cat is happy.", "I love to play.", "Books are fun."]), None)
    case PaintByNumbers => Object(ColorByNumber(map["1" := "red", "2" := "blue", "3" := "yellow"]), Some(StockImageUrl))
  }

  /** The value of a one-digit sum or difference written "a + b = ?" or
      "a - b = ?"; any other text has none. */
  function EvaluateQuestion(q: string): Option<int> {
    if |q| == 9 && IsDigit(q[0]) && q[1] == ' ' && q[3] == ' ' && IsDigit(q[4]) && q[5..] == " = ?" then
      if q[2] == '+' then Some(DigitValue(q[0]) + DigitValue(q[4]))
      else if q[2] == '-' then Some(DigitValue(q[0]) - DigitValue(q[4]))
      else None
    else None
  }

  /** The default math content is three problems, each of whose answer is
      the value of its question. */
  lemma MockMathAnswersAreCorrect()
    ensures MockContent(Math).body.problems == MathProblems && |MathProblems| == 3
    ensures forall i :: 0 <= i < |MathProblems| ==>
              EvaluateQuestion(MathProblems[i].question) == Some(MathProblems[i].answer)
  {
  }

  /** The default puzzle has twelve pieces; the default letters each begin the
      word listed with them. */
  lemma MockPuzzleAndLetters()
    ensures MockContent(Puzzle).body.pieces == 12
    ensures |AlphabetLetters| == |AlphabetWords| == 5
    ensures forall i :: 0 <= i < |AlphabetWords| ==> StartsWith(AlphabetWords[i], AlphabetLetters[i])
  {
  }

  // ---------------------------------------------------------------------------
  // Normalisation and the placeholder
  // ---------------------------------------------------------------------------

  /** The fields a provider's JSON reply is parsed into.  `content` is taken as
      it comes, including no object at all. */
  datatype ActivityPayload = ActivityPayload(title: string, instructions: string, content: Content)

  /** The activity built from a successful provider reply: kind, difficulty and
      age group come from the request, the rest from the reply. */
  function FromPayload(p: ActivityPayload, req: ActivityRequest, id: string, now: Instant): (a: Activity)
    ensures a.kind == req.kind && a.difficulty == req.difficulty && a.ageGroup == req.ageGroup
    ensures a.title == p.title && a.instructions == p.instructions && a.content == p.content
    ensures a.id == id && a.createdAt == now
  {
    Activity(id, p.title, req.kind, req.difficulty, req.ageGroup, p.content, p.instructions, now)
  }

  const TitleSuffix: string := " Adventure"

  /** The placeholder title: the kind name with its first letter capitalised,
      followed by " Adventure".  It starts with a capital, ends with the
      suffix, and what precedes the suffix names the kind. */
  function PlaceholderTitle(k: ActivityKind): (t: string)
    ensures |t| > |TitleSuffix| && t[|t| - |TitleSuffix|..] == TitleSuffix
    ensures IsUpper(t[0])
    ensures LowerFirst(t[..|t| - |TitleSuffix|]) == KindName(k)
  {
    var name := KindName(k);
    KindNamesAreDistinctLowerWords(k, k);
    LowerFirstUndoesUpperFirst(name);
    var t := UpperFirst(name) + TitleSuffix;
    assert t[..|t| - |TitleSuffix|] == UpperFirst(name);
    assert t[|t| - |TitleSuffix|..] == TitleSuffix;
    t
  }

  /** Distinct kinds get distinct placeholder titles. */
  lemma {:induction false} PlaceholderTitleNamesKind(k: ActivityKind, k': ActivityKind)
    ensures PlaceholderTitle(k) == PlaceholderTitle(k') <==> k == k'
  {
    KindNamesAreDistinctLowerWords(k, k');
  }

  /** "math" gives "Math Adventure". */
  lemma MathPlaceholderTitle()
    ensures PlaceholderTitle(Math) == "Math Adventure"
  {
  }

  const InstructionsOpening: string := "Let's have fun with this "

  const InstructionsClosing: string := " activity! Follow the steps and enjoy learning."

  /** The activity substituted when no provider produced one: it keeps the
      request's kind, difficulty and age group, its instructions mention the
      kind, and its content is the default content of the kind. */
  function Placeholder(req: ActivityRequest, id: string, now: Instant): (a: Activity)
    ensures a.kind == req.kind && a.difficulty == req.difficulty && a.ageGroup == req.ageGroup
    ensures a.title == PlaceholderTitle(req.kind)
    ensures Contains(a.instructions, KindName(req.kind))
    ensures a.content == MockContent(req.kind)
    ensures a.id == id && a.createdAt == now
  {
    ContainsMiddle(InstructionsOpening, KindName(req.kind), InstructionsClosing);
    Activity(id, PlaceholderTitle(req.kind), req.kind, req.difficulty, req.ageGroup,
             MockContent(req.kind), InstructionsOpening + KindName(req.kind) + InstructionsClosing, now)
  }

  // ---------------------------------------------------------------------------
  // The fallback policy
  // ---------------------------------------------------------------------------

  /** `ActivityService.generateActivity`, with the provider outcomes, the fresh
      identifier and the time as parameters.  It never rejects: any failure
      yields the placeholder, and a failed OpenAI call is not retried on
      Anthropic. */
  function GenerateActivity(c: Credentials, req: ActivityRequest,
                            openAi: Result<ActivityPayload, Exception>,
                            anthropic: Result<ActivityPayload, Exception>,
                            id: string, now: Instant): (a: Activity)
    ensures Present(c.openAiKey) && openAi.Success? ==> a == FromPayload(openAi.value, req, id, now)
    ensures Present(c.openAiKey) && openAi.Failure? ==> a == Placeholder(req, id, now)
    ensures (!Present(c.openAiKey) && Present(c.anthropicKey) && anthropic.Success?)
              ==> a == FromPayload(anthropic.value, req, id, now)
    ensures (!Present(c.openAiKey) && Present(c.anthropicKey) && anthropic.Failure?)
              ==> a == Placeholder(req, id, now)
    ensures !Present(c.openAiKey) && !Present(c.anthropicKey) ==> a == Placeholder(req, id, now)
  {
    match ProviderAttempt(c, openAi, anthropic)
    case Success(payload) => FromPayload(payload, req, id, now)
    case Failure(_) => Placeholder(req, id, now)
  }

  /** Whatever path produced it, a generated activity has the request's kind,
      difficulty and age group. */
  lemma GeneratedActivityKeepsRequestFields(c: Credentials, req: ActivityRequest,
                                            openAi: Result<ActivityPayload, Exception>,
                                            anthropic: Result<ActivityPayload, Exception>,
                                            id: string, now: Instant)
    ensures var a := GenerateActivity(c, req, openAi, anthropic, id, now);
            a.kind == req.kind && a.difficulty == req.difficulty && a.ageGroup == req.ageGroup
            && a.id == id && a.createdAt == now
  {
  }

  /** A generated activity has a non-empty title exactly when it is the
      placeholder or the provider's reply has one: the reply's title is copied
      unchecked. */
  lemma GeneratedActivityTitleIff(c: Credentials, req: ActivityRequest,
                                  openAi: Result<ActivityPayload, Exception>,
                                  anthropic: Result<ActivityPayload, Exception>,
                                  id: string, now: Instant)
    ensures var a := ProviderAttempt(c, openAi, anthropic);
            GenerateActivity(c, req, openAi, anthropic, id, now).title != ""
            <==> (a.Success? ==> a.value.title != "")
  {
  }

  /** With the OpenAI key set, the Anthropic outcome has no influence, and an
      OpenAI failure gives the placeholder. */
  lemma NoCrossProviderRetry(c: Credentials, req: ActivityRequest,
                             openAi: Result<ActivityPayload, Exception>,
                             anthropic: Result<ActivityPayload, Exception>,
                             anthropic': Result<ActivityPayload, Exception>,
                             id: string, now: Instant)
    requires Present(c.openAiKey)
    ensures GenerateActivity(c, req, openAi, anthropic, id, now)
         == GenerateActivity(c, req, openAi, anthropic', id, now)
    ensures openAi.Failure? ==> GenerateActivity(c, req, openAi, anthropic, id, now) == Placeholder(req, id, now)
  {
  }

  /** A math activity requested with no text key configured is the placeholder
      whose content is the three default problems, each answered correctly. */
  lemma NoKeysMathActivity(req: ActivityRequest, openAi: Result<ActivityPayload, Exception>,
                           anthropic: Result<ActivityPayload, Exception>, id: string, now: Instant)
    requires req.kind == Math
    ensures var a := GenerateActivity(Credentials("", "", ""), req, openAi, anthropic, id, now);
            a.title == "Math Adventure" && a.content.Object? && a.content.body.Problems?
            && |a.content.body.problems| == 3
            && forall i :: 0 <= i < 3 ==>
                 EvaluateQuestion(a.content.body.problems[i].question) == Some(a.content.body.problems[i].answer)
  {
    MathPlaceholderTitle();
    MockMathAnswersAreCorrect();
  }

  // ---------------------------------------------------------------------------
  // Activity illustration
  // ---------------------------------------------------------------------------

  /** `ActivityService.generateActivityImage`: never rejects; the stock
      photograph without a key or on any failure, otherwise the returned
      artifact inlined. */
  function ActivityImage(c: Credentials, outcome: Result<string, Exception>): (url: string)
    ensures ArtifactOf(url) == (if Present(c.stabilityKey) && outcome.Success? then Some(outcome.value) else None)
    ensures ArtifactOf(url).None? ==> url == StockImageUrl
  {
    ImageLocator(c.stabilityKey, outcome)
  }
}

=== FILE: content_store.dfy ===
/** The session's content store: generated and hand-made stories and
    activities (most recent first), one shared busy flag and the last error.
    Every action is one atomic transition; provider, image and database
    outcomes are parameters. */
module ContentStore {
  import opened Wrappers
  import opened Types
  import opened Providers
  import StoryService
  import ActivityService

  datatype ContentState = ContentState(
    stories: seq<Story>,
    activities: seq<Activity>,
    isGenerating: bool,
    error: Option<string>)

  const Initial: ContentState := ContentState([], [], false, None)

  /** The first `set` of a generation: busy, no error, lists untouched. */
  function BeginGeneration(s: ContentState): (t: ContentState)
    ensures t.isGenerating && t.error == None
    ensures t.stories == s.stories && t.activities == s.activities
  {
    s.(isGenerating := true, error := None)
  }

  /** How a story generation settles once its pipeline resolves or rejects.
      On success the story is prepended and the busy flag cleared; on failure
      the message (or a default) is recorded, the lists are kept and the same
      failure is passed on to the caller. */
  function SettleStory(s: ContentState, outcome: Result<Story, Exception>): (r: (ContentState, Result<Story, Exception>))
    ensures !r.0.isGenerating && r.1 == outcome && r.0.activities == s.activities
    ensures outcome.Success? ==> r.0.stories == [outcome.value] + s.stories && r.0.error == s.error
    ensures outcome.Failure? ==> r.0.stories == s.stories
                                 && r.0.error == Some(MessageOr(outcome.error, "Failed to generate story"))
  {
    match outcome
    case Success(story) => (s.(stories := [story] + s.stories, isGenerating := false), outcome)
    case Failure(e) => (s.(error := Some(MessageOr(e, "Failed to generate story")), isGenerating := false), outcome)
  }

  /** How an activity generation settles; the counterpart of `SettleStory`. */
  function SettleActivity(s: ContentState, outcome: Result<Activity, Exception>): (r: (ContentState, Result<Activity, Exception>))
    ensures !r.0.isGenerating && r.1 == outcome && r.0.stories == s.stories
    ensures outcome.Success? ==> r.0.activities == [outcome.value] + s.activities && r.0.error == s.error
    ensures outcome.Failure? ==> r.0.activities == s.activities
                                 && r.0.error == Some(MessageOr(outcome.error, "Failed to generate activity"))
  {
    match outcome
    case Success(activity) => (s.(activities := [activity] + s.activities, isGenerating := false), outcome)
    case Failure(e) => (s.(error := Some(MessageOr(e, "Failed to generate activity")), isGenerating := false), outcome)
  }

  // ---------------------------------------------------------------------------
  // Story generation
  // ---------------------------------------------------------------------------

  /** The story the store publishes: the service's story with its cover set
      and nothing else changed.  Because the cover image never rejects, every
      generated story gets one. */
  function StoryPipeline(c: Credentials, req: StoryRequest,
                         openAi: Result<StoryService.StoryPayload, Exception>,
                         anthropic: Result<StoryService.StoryPayload, Exception>,
                         image: Result<string, Exception>, id: string, now: Instant): (story: Story)
    ensures story.coverImage == Some(StoryService.CoverImage(c, image))
    ensures story.(coverImage := None) == StoryService.GenerateStory(c, req, openAi, anthropic, id, now)
  {
    StoryService.GenerateStory(c, req, openAi, anthropic, id, now).(coverImage := Some(StoryService.CoverImage(c, image)))
  }

  /** `generateStory`: begin, generate, attach the cover, save (the save's
      outcome `persisted` is swallowed), then settle.  The pipeline cannot
      reject, so the action always resolves with the story it prepends, and
      leaves the store idle with no error. */
  function GenerateStory(s: ContentState, c: Credentials, req: StoryRequest,
                         openAi: Result<StoryService.StoryPayload, Exception>,
                         anthropic: Result<StoryService.StoryPayload, Exception>,
                         image: Result<string, Exception>, persisted: Result<Story, Exception>,
                         id: string, now: Instant): (r: (ContentState, Result<Story, Exception>))
    ensures r.1 == Success(StoryPipeline(c, req, openAi, anthropic, image, id, now))
    ensures r.0.stories == [r.1.value] + s.stories && r.0.activities == s.activities
    ensures !r.0.isGenerating && r.0.error == None
  {
    SettleStory(BeginGeneration(s), Success(StoryPipeline(c, req, openAi, anthropic, image, id, now)))
  }

  /** A failed save changes nothing the user sees. */
  lemma StorySaveFailureIsSwallowed(s: ContentState, c: Credentials, req: StoryRequest,
                                    openAi: Result<StoryService.StoryPayload, Exception>,
                                    anthropic: Result<StoryService.StoryPayload, Exception>,
                                    image: Result<string, Exception>,
                                    saved: Story, failure: Exception, id: string, now: Instant)
    ensures GenerateStory(s, c, req, openAi, anthropic, image, Failure(failure), id, now)
         == GenerateStory(s, c, req, openAi, anthropic, image, Success(saved), id, now)
  {
  }

  // ---------------------------------------------------------------------------
  // Activity generation
  // ---------------------------------------------------------------------------

  /** The kinds that get an illustration: coloring, drawing, paint-by-numbers. */
  predicate IsVisualKind(k: ActivityKind) {
    k == Coloring || k == Drawing || k == PaintByNumbers
  }

  /** `activity.content.imageUrl = url`: sets the property of a content object;
      on no object, or on a primitive value (an assignment to a primitive's
      property throws in a module's strict mode), it throws (None). */
  function SetImageUrl(content: Content, url: string): (r: Option<Content>)
    ensures r.Some? <==> content.Object?
    ensures r.Some? ==> content.Object? && r.value == Object(content.body, Some(url))
  {
    match content
    case Absent => None
    case Primitive(_) => None
    case Object(body, _) => Some(Object(body, Some(url)))
  }

  /** The illustration step: only visual kinds are touched, and only their
      content's `imageUrl`; a throw while setting it (content that is not an
      object) is caught and the activity kept as it was. */
  function Illustrate(a: Activity, c: Credentials, image: Result<string, Exception>): (e: Activity)
    ensures e.(content := a.content) == a
    ensures !IsVisualKind(a.kind) || !a.content.Object? ==> e == a
    ensures (IsVisualKind(a.kind) && a.content.Object?)
              ==> e.content == Object(a.content.body, Some(ActivityService.ActivityImage(c, image)))
  {
    if IsVisualKind(a.kind) then
      match SetImageUrl(a.content, ActivityService.ActivityImage(c, image))
      case Some(content) => a.(content := content)
      case None => a
    else a
  }

  /** The activity the store publishes: the service's activity, illustrated;
      at most its content differs from what the service produced. */
  function ActivityPipeline(c: Credentials, req: ActivityRequest,
                            openAi: Result<ActivityService.ActivityPayload, Exception>,
                            anthropic: Result<ActivityService.ActivityPayload, Exception>,
                            image: Result<string, Exception>, id: string, now: Instant): (a: Activity)
    ensures a.(content := ActivityService.GenerateActivity(c, req, openAi, anthropic, id, now).content)
         == ActivityService.GenerateActivity(c, req, openAi, anthropic, id, now)
  {
    Illustrate(ActivityService.GenerateActivity(c, req, openAi, anthropic, id, now), c, image)
  }

  /** `generateActivity`: begin, generate, illustrate visual kinds, save (the
      save's outcome is swallowed), then settle.  It always resolves with the
      activity it prepends and leaves the store idle with no error. */
  function GenerateActivity(s: ContentState, c: Credentials, req: ActivityRequest,
                            openAi: Result<ActivityService.ActivityPayload, Exception>,
                            anthropic: Result<ActivityService.ActivityPayload, Exception>,
                            image: Result<string, Exception>, persisted: Result<Activity, Exception>,
                            id: string, now: Instant): (r: (ContentState, Result<Activity, Exception>))
    ensures r.1 == Success(ActivityPipeline(c, req, openAi, anthropic, image, id, now))
    ensures r.0.activities == [r.1.value] + s.activities && r.0.stories == s.stories
    ensures !r.0.isGenerating && r.0.error == None
  {
    SettleActivity(BeginGeneration(s), Success(ActivityPipeline(c, req, openAi, anthropic, image, id, now)))
  }

  /** A failed save changes nothing the user sees. */
  lemma ActivitySaveFailureIsSwallowed(s: ContentState, c: Credentials, req: ActivityRequest,
                                       openAi: Result<ActivityService.ActivityPayload, Exception>,
                                       anthropic: Result<ActivityService.ActivityPayload, Exception>,
                                       image: Result<string, Exception>,
                                       saved: Activity, failure: Exception, id: string, now: Instant)
    ensures GenerateActivity(s, c, req, openAi, anthropic, image, Failure(failure), id, now)
         == GenerateActivity(s, c, req, openAi, anthropic, image, Success(saved), id, now)
  {
  }

  /** A generated activity keeps the request's kind, difficulty and age group
      through the illustration step; a visual one generated without a text
      key always carries the illustration in its default content. */
  lemma PublishedActivityFields(c: Credentials, req: ActivityRequest,
                                openAi: Result<ActivityService.ActivityPayload, Exception>,
                                anthropic: Result<ActivityService.ActivityPayload, Exception>,
                                image: Result<string, Exception>, id: string, now: Instant)
    ensures var a := ActivityPipeline(c, req, openAi, anthropic, image, id, now);
            a.kind == req.kind && a.difficulty == req.difficulty && a.ageGroup == req.ageGroup
    ensures var a := ActivityPipeline(c, req, openAi, anthropic, image, id, now);
            (!Present(c.openAiKey) && !Present(c.anthropicKey) && IsVisualKind(req.kind))
              ==> a.content == Object(ActivityService.MockContent(req.kind).body,
                                      Some(ActivityService.ActivityImage(c, image)))
  {
  }

  /** Two activity generations with no text key configured leave two new
      activities, the later request's first, and the store idle. */
  lemma TwoGenerationsWithoutKeys(s: ContentState, stabilityKey: string, req1: ActivityRequest, req2: ActivityRequest,
                                  image1: Result<string, Exception>, image2: Result<string, Exception>,
                                  failed: Exception, saved1: Result<Activity, Exception>,
                                  saved2: Result<Activity, Exception>,
                                  id1: string, id2: string, now1: Instant, now2: Instant)
    ensures var c := Credentials("", "", stabilityKey);
            var s1 := GenerateActivity(s, c, req1, Failure(failed), Failure(failed), image1, saved1, id1, now1).0;
            var s2 := GenerateActivity(s1, c, req2, Failure(failed), Failure(failed), image2, saved2, id2, now2).0;
            |s2.activities| == |s.activities| + 2 && s2.activities[2..] == s.activities
            && s2.activities[0].kind == req2.kind && s2.activities[1].kind == req1.kind
            && s2.activities[0].title == ActivityService.PlaceholderTitle(req2.kind)
            && !s2.isGenerating && s2.error == None
  {
  }

  /** Starting from the store as the application creates it, two generations
      without keys leave exactly the two placeholders and no stories. */
  lemma TwoGenerationsFromInitial(stabilityKey: string, req1: ActivityRequest, req2: ActivityRequest,
                                  image1: Result<string, Exception>, image2: Result<string, Exception>,
                                  failed: Exception, saved1: Result<Activity, Exception>,
                                  saved2: Result<Activity, Exception>,
                                  id1: string, id2: string, now1: Instant, now2: Instant)
    ensures var c := Credentials("", "", stabilityKey);
            var s1 := GenerateActivity(Initial, c, req1, Failure(failed), Failure(failed), image1, saved1, id1, now1).0;
            var s2 := GenerateActivity(s1, c, req2, Failure(failed), Failure(failed), image2, saved2, id2, now2).0;
            |s2.activities| == 2 && s2.stories == []
            && s2.activities[0].kind == req2.kind && s2.activities[1].kind == req1.kind
            && !s2.isGenerating && s2.error == None
  {
    TwoGenerationsWithoutKeys(Initial, stabilityKey, req1, req2, image1, image2, failed, saved1, saved2,
                              id1, id2, now1, now2);
  }

  // ---------------------------------------------------------------------------
  // Loading and direct edits
  // ---------------------------------------------------------------------------

  /** `loadUserContent`: both lists are fetched together; if both arrive they
      replace the lists, otherwise the lists stay and the error is set.  The
      busy flag is never touched. */
  function LoadUserContent(s: ContentState, stories: Result<seq<Story>, Exception>,
                           activities: Result<seq<Activity>, Exception>): (t: ContentState)
    ensures t.isGenerating == s.isGenerating
    ensures (stories.Success? && activities.Success?)
              ==> t.stories == stories.value && t.activities == activities.value && t.error == s.error
    ensures (stories.Failure? || activities.Failure?)
              ==> t.stories == s.stories && t.activities == s.activities
                  && t.error == Some("Failed to load your content")
  {
    if stories.Success? && activities.Success? then
      s.(stories := stories.value, activities := activities.value)
    else
      s.(error := Some("Failed to load your content"))
  }

  /** `addStory`: the story is first, the old ones follow, nothing else changes. */
  function AddStory(s: ContentState, story: Story): (t: ContentState)
    ensures |t.stories| == |s.stories| + 1 && t.stories[0] == story
    ensures forall i :: 0 <= i < |s.stories| ==> t.stories[i + 1] == s.stories[i]
    ensures t.activities == s.activities && t.isGenerating == s.isGenerating && t.error == s.error
  {
    s.(stories := [story] + s.stories)
  }

  /** `addActivity`: the activity is first, the old ones follow, nothing else changes. */
  function AddActivity(s: ContentState, activity: Activity): (t: ContentState)
    ensures |t.activities| == |s.activities| + 1 && t.activities[0] == activity
    ensures forall i :: 0 <= i < |s.activities| ==> t.activities[i + 1] == s.activities[i]
    ensures t.stories == s.stories && t.isGenerating == s.isGenerating && t.error == s.error
  {
    s.(activities := [activity] + s.activities)
  }

  /** `clearError`: only the error changes. */
  function ClearError(s: ContentState): (t: ContentState)
    ensures t.error == None
    ensures t.stories == s.stories && t.activities == s.activities && t.isGenerating == s.isGenerating
  {
    s.(error := None)
  }
}

=== FILE: donation_center.dfy ===
/** The donation form's submit handler: the required-field guard, the
    donation record it builds, and what happens to the form and the store. */
module DonationCenter {
  import opened Wrappers
  import opened Types
  import DonationStore

  /** The text fields of the form. */
  datatype DonationForm = DonationForm(
    donorName: string,
    donorEmail: string,
    description: string,
    quantity: string,
    amount: string)

  const EmptyForm: DonationForm := DonationForm("", "", "", "", "")

  /** The component's state: the form, the selected kind and two flags. */
  datatype DonationCenterState = DonationCenterState(
    form: DonationForm,
    donationType: DonationKind,
    isSubmitting: bool,
    submitted: bool)

  /** A parser from text to a number that may fail (`NaN` is `None`). */
  type Parser = string -> Option<int>

  /** `parseInt(text) || 1`: a missing or zero number becomes one. */
  function QuantityOrOne(parsed: Option<int>): (q: int)
    ensures q != 0
    ensures parsed.Some? && parsed.value != 0 ==> q == parsed.value
    ensures parsed.None? || parsed.value == 0 ==> q == 1
  {
    if parsed.Some? && parsed.value != 0 then parsed.value else 1
  }

  /** `parseFloat(text) || 0`: a missing number becomes zero. */
  function AmountOrZero(parsed: Option<int>): (a: int)
    ensures parsed.Some? ==> a == parsed.value
    ensures parsed.None? ==> a == 0
  {
    if parsed.Some? && parsed.value != 0 then parsed.value else 0
  }

  /** All three required fields are filled in. */
  predicate RequiredFieldsFilled(f: DonationForm) {
    f.donorName != "" && f.donorEmail != "" && f.description != ""
  }

  /** The record submitted for the form: the text fields copied, a quantity
      exactly for goods and an amount exactly for money, status pending. */
  function BuildDonation(f: DonationForm, kind: DonationKind, parseInt: Parser, parseFloat: Parser)
    : (d: DonationDraft)
    ensures d.donorName == f.donorName && d.donorEmail == f.donorEmail && d.description == f.description
    ensures d.itemType == kind && d.status == Pending
    ensures d.quantity.Some? <==> kind != Monetary
    ensures d.amount.Some? <==> kind == Monetary
    ensures !(d.quantity.Some? && d.amount.Some?)
    ensures d.quantity.Some? ==> d.quantity.value != 0
    ensures (d.quantity.Some? && parseInt(f.quantity).Some? && parseInt(f.quantity).value != 0)
              ==> d.quantity.value == parseInt(f.quantity).value
    ensures (d.quantity.Some? && (parseInt(f.quantity).None? || parseInt(f.quantity).value == 0))
              ==> d.quantity.value == 1
    ensures d.amount.Some? && parseFloat(f.amount).Some? ==> d.amount.value == parseFloat(f.amount).value
    ensures d.amount.Some? && parseFloat(f.amount).None? ==> d.amount.value == 0
  {
    DonationDraft(
      f.donorName, f.donorEmail, kind, f.description,
      if kind != Monetary then Some(QuantityOrOne(parseInt(f.quantity))) else None,
      if kind == Monetary then Some(AmountOrZero(parseFloat(f.amount))) else None,
      Pending)
  }

  /** `handleSubmit`.  With a required field empty nothing happens.  Otherwise
      the donation built from the form is handed to the store's create action;
      only if the insert succeeds is the form cleared and `submitted` set, and
      `isSubmitting` ends false either way. */
  function HandleSubmit(ui: DonationCenterState, store: DonationStore.DonationState,
                        parseInt: Parser, parseFloat: Parser, insert: DonationStore.Insert)
    : (r: (DonationCenterState, DonationStore.DonationState))
    ensures !RequiredFieldsFilled(ui.form) ==> r == (ui, store)
    ensures var draft := BuildDonation(ui.form, ui.donationType, parseInt, parseFloat);
            RequiredFieldsFilled(ui.form)
            ==> r.1 == DonationStore.CreateDonation(store, draft, insert).0
                && !r.0.isSubmitting && r.0.donationType == ui.donationType
                && (insert(draft).Success? ==> r.0.form == EmptyForm && r.0.submitted)
                && (insert(draft).Failure? ==> r.0.form == ui.form && r.0.submitted == ui.submitted)
  {
    if !RequiredFieldsFilled(ui.form) then (ui, store)
    else
      var submitting := ui.(isSubmitting := true);
      var draft := BuildDonation(ui.form, ui.donationType, parseInt, parseFloat);
      var (store', outcome) := DonationStore.CreateDonation(store, draft, insert);
      var ui' := if outcome.Success? then submitting.(submitted := true, form := EmptyForm) else submitting;
      (ui'.(isSubmitting := false), store')
  }

  /** A successful submission puts a pending record, with quantity and amount
      never both set, into the insert, and the store's list grows by the stored
      donation. */
  lemma SubmittedDonationIsPending(ui: DonationCenterState, store: DonationStore.DonationState,
                                   parseInt: Parser, parseFloat: Parser,
                                   insert: DonationStore.Insert)
    requires RequiredFieldsFilled(ui.form)
    requires insert(BuildDonation(ui.form, ui.donationType, parseInt, parseFloat)).Success?
    ensures var draft := BuildDonation(ui.form, ui.donationType, parseInt, parseFloat);
            var r := HandleSubmit(ui, store, parseInt, parseFloat, insert);
            draft.status == Pending && !(draft.quantity.Some? && draft.amount.Some?)
            && r.1.donations == [insert(draft).value] + store.donations
            && r.0.submitted && r.0.form == EmptyForm
  {
  }
}

=== FILE: donation_store.dfy ===
/** The session's donation store: the donations (most recent first), a busy
    flag and the last error.  Database outcomes are parameters. */
module DonationStore {
  import opened Wrappers
  import opened Types

  datatype DonationState = DonationState(donations: seq<Donation>, isLoading: bool, error: Option<string>)

  const Initial: DonationState := DonationState([], false, None)

  /** The first `set` of both actions: busy, no error, list untouched. */
  function BeginRequest(s: DonationState): (t: DonationState)
    ensures t.isLoading && t.error == None && t.donations == s.donations
  {
    s.(isLoading := true, error := None)
  }

  /** The database insert for a donation record: it resolves to the stored
      donation or rejects. */
  type Insert = DonationDraft -> Result<Donation, Exception>

  /** `createDonation`: the draft is inserted and `insert(draft)` is what the
      insert resolves to.  On success the stored donation is prepended; on
      failure the message (or a default) is recorded, the list is kept, and the
      failure is passed on.  Either way the store ends idle. */
  function CreateDonation(s: DonationState, draft: DonationDraft, insert: Insert)
    : (r: (DonationState, Result<Donation, Exception>))
    ensures var stored := insert(draft);
            !r.0.isLoading && r.1 == stored
            && (stored.Success? ==> r.0.donations == [stored.value] + s.donations && r.0.error == None)
            && (stored.Failure? ==> r.0.donations == s.donations
                                    && r.0.error == Some(MessageOr(stored.error, "Failed to create donation")))
  {
    var busy := BeginRequest(s);
    var stored := insert(draft);
    match stored
    case Success(d) => (busy.(donations := [d] + busy.donations, isLoading := false), stored)
    case Failure(e) => (busy.(error := Some(MessageOr(e, "Failed to create donation")), isLoading := false), stored)
  }
  /** `loadDonations`: on success the fetched list replaces the old one; on
      failure the old list stays and a fixed message is recorded.  The action
      never rejects and always ends idle. */
  function LoadDonations(s: DonationState, fetched: Result<seq<Donation>, Exception>): (t: DonationState)
    ensures !t.isLoading
    ensures fetched.Success? ==> t.donations == fetched.value && t.error == None
    ensures fetched.Failure? ==> t.donations == s.donations && t.error == Some("Failed to load donations")
  {
    var busy := BeginRequest(s);
    match fetched
    case Success(ds) => busy.(donations := ds, isLoading := false)
    case Failure(_) => busy.(error := Some("Failed to load donations"), isLoading := false)
  }

  /** `clearError`: only the error changes. */
  function ClearError(s: DonationState): (t: DonationState)
    ensures t.error == None && t.donations == s.donations && t.isLoading == s.isLoading
  {
    s.(error := None)
  }

  /** A successful create adds exactly one donation in front of the others. */
  lemma CreateDonationPrependsOne(s: DonationState, draft: DonationDraft, insert: Insert)
    requires insert(draft).Success?
    ensures var t := CreateDonation(s, draft, insert).0;
            |t.donations| == |s.donations| + 1 && t.donations[0] == insert(draft).value
            && forall i :: 0 <= i < |s.donations| ==> t.donations[i + 1] == s.donations[i]
  {
  }

  /** The first donation created in a fresh store is the only one listed. */
  lemma FirstDonationFromInitial(draft: DonationDraft, insert: Insert)
    requires insert(draft).Success?
    ensures CreateDonation(Initial, draft, insert).0.donations == [insert(draft).value]
  {
    CreateDonationPrependsOne(Initial, draft, insert);
  }
}

=== FILE: manual_activity_creator.dfy ===
/** The hand-made activity dialog: the guard on its form, the activity it
    builds, and the reset that follows. */
module ManualActivityCreator {
  import opened Wrappers
  import opened Types
  import opened Providers
  import ActivityService
  import ContentStore

  /** The dialog's form.  Its age group is free text; the form's own content
      field is never read, so it is not modelled. */
  datatype ActivityForm = ActivityForm(
    title: string,
    kind: ActivityKind,
    difficulty: Difficulty,
    ageGroup: string,
    instructions: string)

  const InitialForm: ActivityForm := ActivityForm("", Coloring, Easy, "3-5", "")

  datatype CreatorState = CreatorState(isOpen: bool, form: ActivityForm, isCreating: bool)

  /** The component's own table of default content per kind
      (`getDefaultContent`): an object of the kind's own shape for each of the
      eight kinds, with the stock image exactly for coloring, puzzle and
      paint-by-numbers. */
  function DefaultContent(k: ActivityKind): (c: Content)
    ensures c.Object? && ActivityService.BodyFitsKind(k, c.body)
    ensures c.imageUrl.Some? <==> k in {Coloring, Puzzle, PaintByNumbers}
    ensures c.imageUrl.Some? ==> c.imageUrl.value == StockImageUrl
  {
    match k
    case Coloring => Object(Palette(["red", "blue", "yellow", "green", "purple", "orange"]), Some(StockImageUrl))
    case Math => Object(Problems([Problem("2 + 3 = ?", 5), Problem("5 - 2 = ?", 3), Problem("4 + 1 = ?", 5)]), None)
    case Letters => Object(Alphabet(["A", "B", "C", "D", "E"], ["Apple", "Ball", "Cat", "Dog", "Elephant"]), None)
    case Puzzle => Object(Jigsaw(12), Some(StockImageUrl))
    case Drawing => Object(DrawingPrompt("Draw your favorite animal", ["pencil", "crayon", "marker"]), None)
    case Words => Object(Vocabulary(["happy", "sunny", "friend", "play", "learn"]), None)
    case Dictation => Object(Sentences(["The cat is happy.", "I love to play.", "Books are fun."]), None)
    case PaintByNumbers => Object(ColorByNumber(map["1" := "red", "2" := "blue", "3" := "yellow"]), Some(StockImageUrl))
  }

  /** The dialog's table and the generation service's table agree on every kind. */
  lemma DefaultContentMatchesMockContent(k: ActivityKind)
    ensures DefaultContent(k) == ActivityService.MockContent(k)
  {
  }

  /** Both required fields are filled in. */
  predicate CanCreate(f: ActivityForm) {
    f.title != "" && f.instructions != ""
  }

  /** The activity built from the form: title, kind, difficulty, age group and
      instructions copied, content the kind's default. */
  function NewActivity(f: ActivityForm, id: string, now: Instant): (a: Activity)
    ensures a.title == f.title && a.kind == f.kind && a.difficulty == f.difficulty
    ensures a.ageGroup == f.ageGroup && a.instructions == f.instructions
    ensures a.content == ActivityService.MockContent(f.kind)
    ensures a.id == id && a.createdAt == now
  {
    DefaultContentMatchesMockContent(f.kind);
    Activity(id, f.title, f.kind, f.difficulty, f.ageGroup, DefaultContent(f.kind), f.instructions, now)
  }

  /** `handleCreate`.  With the title or instructions empty nothing happens.
      Otherwise exactly one activity, built from the form, is added in front
      of the store's activities, nothing else in the store changes, the form
      returns to its initial values and the dialog closes. */
  function HandleCreate(ui: CreatorState, store: ContentStore.ContentState, id: string, now: Instant)
    : (r: (CreatorState, ContentStore.ContentState))
    ensures !CanCreate(ui.form) ==> r == (ui, store)
    ensures CanCreate(ui.form) ==>
              && r.1.activities == [NewActivity(ui.form, id, now)] + store.activities
              && r.1.stories == store.stories && r.1.isGenerating == store.isGenerating && r.1.error == store.error
              && r.0 == CreatorState(false, InitialForm, false)
  {
    if !CanCreate(ui.form) then (ui, store)
    else
      var creating := ui.(isCreating := true);
      var store' := ContentStore.AddActivity(store, NewActivity(ui.form, id, now));
      var reset := creating.(form := InitialForm, isOpen := false);
      (reset.(isCreating := false), store')
  }
}

=== FILE: providers.dfy ===
/** What the story and activity services share: the choice of text provider
    from the configured keys, and the image locator an illustration resolves
    to (a fixed stock photograph, or an inline PNG built from the artifact the
    image provider returns). */
module Providers {
  import opened Wrappers
  import opened Text
  import opened Types

  datatype Provider = OpenAI | Anthropic

  /** The one provider a generation calls: OpenAI whenever its key is set,
      Anthropic only when it is the sole key set, none otherwise. */
  function SelectProvider(c: Credentials): (p: Option<Provider>)
    ensures p == Some(OpenAI) <==> Present(c.openAiKey)
    ensures p == Some(Anthropic) <==> !Present(c.openAiKey) && Present(c.anthropicKey)
    ensures p == None <==> !Present(c.openAiKey) && !Present(c.anthropicKey)
  {
    if Present(c.openAiKey) then Some(OpenAI)
    else if Present(c.anthropicKey) then Some(Anthropic)
    else None
  }

  function ModelId(p: Provider): string {
    match p
    case OpenAI => "gpt-4"
    case Anthropic => "claude-3-sonnet-20240229"
  }

  /** The error the services raise, and catch, when no text key is set. */
  const NoKeysError: Exception := ErrorWithMessage("No API keys configured")

  /** What the `try` body of a generation produces: the selected provider's
      outcome, or the no-key error.  The provider that is not selected is never
      called, so its outcome is never looked at. */
  function ProviderAttempt<P>(c: Credentials, openAi: Result<P, Exception>, anthropic: Result<P, Exception>)
    : (r: Result<P, Exception>)
    ensures SelectProvider(c) == Some(OpenAI) ==> r == openAi
    ensures SelectProvider(c) == Some(Anthropic) ==> r == anthropic
    ensures SelectProvider(c) == None ==> r == Failure(NoKeysError)
  {
    match SelectProvider(c)
    case Some(OpenAI) => openAi
    case Some(Anthropic) => anthropic
    case None => Failure(NoKeysError)
  }

  const StockHost: string := "https://images.pexels.com"

  const StockImageUrl: string :=
    StockHost + "/photos/1148998/pexels-photo-1148998.jpeg?auto=compress&cs=tinysrgb&w=400"

  const DataUrlPrefix: string := "data:image/png;base64,"

  /** The base64 artifact an inline-image locator carries, if it is one. */
  function ArtifactOf(url: string): (a: Option<string>)
    ensures a.Some? <==> StartsWith(url, DataUrlPrefix)
    ensures a.Some? ==> url == DataUrlPrefix + a.value
  {
    if StartsWith(url, DataUrlPrefix) then Some(url[|DataUrlPrefix|..]) else None
  }

  /** The stock photograph is not an inline image. */
  lemma StockIsNotInline()
    ensures ArtifactOf(StockImageUrl) == None
  {
    assert StockImageUrl[0] == 'h';
  }

  /** What an image generation resolves to: the stock photograph when no image
      key is configured or the provider call fails in any way, otherwise the
      returned artifact as an inline PNG.  It never rejects. */
  function ImageLocator(stabilityKey: string, outcome: Result<string, Exception>): (url: string)
    ensures ArtifactOf(url) == (if Present(stabilityKey) && outcome.Success? then Some(outcome.value) else None)
    ensures ArtifactOf(url).None? ==> url == StockImageUrl
  {
    StockIsNotInline();
    if !Present(stabilityKey) then StockImageUrl
    else match outcome
      case Success(artifact) =>
        assert (DataUrlPrefix + artifact)[..|DataUrlPrefix|] == DataUrlPrefix;
        assert (DataUrlPrefix + artifact)[|DataUrlPrefix|..] == artifact;
        DataUrlPrefix + artifact
      case Failure(_) => StockImageUrl
  }
}

=== FILE: story_service.dfy ===
/** Story generation: provider selection by configured key, normalisation of a
    provider reply, the local placeholder story, the length-dependent prompt
    numbers, and the cover image. */
module StoryService {
  import opened Wrappers
  import opened Text
  import opened Types
  import opened Providers

  // ---------------------------------------------------------------------------
  // Prompt parameters that depend on the requested length
  // ---------------------------------------------------------------------------

  /** The completion-token budget for each length, keyed by the length's name. */
  function MaxTokens(l: StoryLength): (budget: nat)
    ensures LengthName(l) == "short" ==> budget == 800
    ensures LengthName(l) == "medium" ==> budget == 1200
    ensures LengthName(l) == "long" ==> budget == 2000
  {
    match l
    case Short => 800
    case Medium => 1200
    case Long => 2000
  }

  /** The word range each length asks for, keyed by the length's name. */
  function WordRangeText(l: StoryLength): (range: string)
    ensures LengthName(l) == "short" ==> range == "200-400"
    ensures LengthName(l) == "medium" ==> range == "400-800"
    ensures LengthName(l) == "long" ==> range == "800-1200"
  {
    match l
    case Short => "200-400"
    case Medium => "400-800"
    case Long => "800-1200"
  }

  /** The parts of a story completion request that the model records. */
  datatype CompletionCall = CompletionCall(model: string, maxTokens: nat, wordRange: string)

  /** The request `generateWithOpenAI` sends, built with its own comparisons
      of the length name: both numbers are the ones the length selects. */
  function OpenAiStoryCall(req: StoryRequest): (call: CompletionCall)
    ensures call.model == ModelId(OpenAI)
    ensures call.maxTokens == MaxTokens(req.length) && call.wordRange == WordRangeText(req.length)
  {
    var length := LengthName(req.length);
    CompletionCall(
      "gpt-4",
      if length == "short" then 800 else if length == "medium" then 1200 else 2000,
      if length == "short" then "200-400" else if length == "medium" then "400-800" else "800-1200")
  }

  /** The request `generateWithAnthropic` sends, built with its own
      comparisons: the same budget and word range as OpenAI's for every length. */
  function AnthropicStoryCall(req: StoryRequest): (call: CompletionCall)
    ensures call.model == ModelId(Anthropic)
    ensures call.maxTokens == MaxTokens(req.length) && call.wordRange == WordRangeText(req.length)
  {
    var length := LengthName(req.length);
    CompletionCall(
      "claude-3-sonnet-20240229",
      if length == "short" then 800 else if length == "medium" then 1200 else 2000,
      if length == "short" then "200-400" else if length == "medium" then "400-800" else "800-1200")
  }

  // ---------------------------------------------------------------------------
  // Normalisation and the placeholder
  // ---------------------------------------------------------------------------

  /** The fields a provider's JSON reply is parsed into. */
  datatype StoryPayload = StoryPayload(title: string, content: string, category: string, readingTime: int)

  /** The story built from a successful provider reply: title, content,
      category and reading time are copied from the reply unchecked; the age
      group and life lesson come from the request. */
  function FromPayload(p: StoryPayload, req: StoryRequest, id: string, now: Instant): (s: Story)
    ensures s.title == p.title && s.content == p.content
    ensures s.category == p.category && s.readingTime == p.readingTime
    ensures s.ageGroup == req.ageGroup && s.lifeLesson == Some(req.lifeLesson)
    ensures s.coverImage == None && s.audioUrl == None
    ensures s.id == id && s.createdAt == now
  {
    Story(id, p.title, p.content, p.category, req.ageGroup, None, None, Some(req.lifeLesson), p.readingTime, now)
  }

  const PlaceholderTitlePrefix: string := "The Magical Adventure of "

  const PlaceholderOpening: string :=
    "Once upon a time, in a land filled with wonder and magic, there lived a brave little character who would learn about "

  const PlaceholderClosing: string :=
    ". This enchanting tale unfolds with excitement and valuable lessons that will inspire young hearts and minds."

  /** The story substituted when no provider produced one: its title ends in
      the theme, its text mentions the life lesson, and it is a five-minute
      adventure for the requested age group. */
  function Placeholder(req: StoryRequest, id: string, now: Instant): (s: Story)
    ensures StartsWith(s.title, PlaceholderTitlePrefix) && s.title[|PlaceholderTitlePrefix|..] == req.theme
    ensures Contains(s.title, req.theme) && Contains(s.content, req.lifeLesson)
    ensures ParseCategory(s.category) == Some(Adventure) && s.readingTime == 5
    ensures s.ageGroup == req.ageGroup && s.lifeLesson == Some(req.lifeLesson)
    ensures s.coverImage == None && s.audioUrl == None
    ensures s.id == id && s.createdAt == now
  {
    var title := PlaceholderTitlePrefix + req.theme;
    assert title[..|PlaceholderTitlePrefix|] == PlaceholderTitlePrefix;
    ContainsMiddle(PlaceholderTitlePrefix, req.theme, "");
    assert PlaceholderTitlePrefix + req.theme + "" == title;
    ContainsMiddle(PlaceholderOpening, req.lifeLesson, PlaceholderClosing);
    Story(id, title, PlaceholderOpening + req.lifeLesson + PlaceholderClosing, CategoryName(Adventure),
          req.ageGroup, None, None, Some(req.lifeLesson), 5, now)
  }

  // ---------------------------------------------------------------------------
  // The fallback policy
  // ---------------------------------------------------------------------------

  /** `StoryService.generateStory`.  `openAi` and `anthropic` are what a call
      to each provider would resolve to (transport, status and JSON failures
      all as `Failure`); `id` and `now` are the fresh identifier and time.
      It never rejects: any failure yields the placeholder, and a failed
      OpenAI call is not retried on Anthropic. */
  function GenerateStory(c: Credentials, req: StoryRequest,
                         openAi: Result<StoryPayload, Exception>, anthropic: Result<StoryPayload, Exception>,
                         id: string, now: Instant): (s: Story)
    ensures Present(c.openAiKey) && openAi.Success? ==> s == FromPayload(openAi.value, req, id, now)
    ensures Present(c.openAiKey) && openAi.Failure? ==> s == Placeholder(req, id, now)
    ensures (!Present(c.openAiKey) && Present(c.anthropicKey) && anthropic.Success?)
              ==> s == FromPayload(anthropic.value, req, id, now)
    ensures (!Present(c.openAiKey) && Present(c.anthropicKey) && anthropic.Failure?)
              ==> s == Placeholder(req, id, now)
    ensures !Present(c.openAiKey) && !Present(c.anthropicKey) ==> s == Placeholder(req, id, now)
  {
    match ProviderAttempt(c, openAi, anthropic)
    case Success(payload) => FromPayload(payload, req, id, now)
    case Failure(_) => Placeholder(req, id, now)
  }

  /** Every generated story, whatever path produced it, carries the request's
      age group and life lesson, has no cover or audio yet, and uses the
      supplied identifier and time. */
  lemma GeneratedStoryKeepsRequestFields(c: Credentials, req: StoryRequest,
                                         openAi: Result<StoryPayload, Exception>,
                                         anthropic: Result<StoryPayload, Exception>,
                                         id: string, now: Instant)
    ensures var s := GenerateStory(c, req, openAi, anthropic, id, now);
            s.ageGroup == req.ageGroup && s.lifeLesson == Some(req.lifeLesson)
            && s.coverImage == None && s.audioUrl == None && s.id == id && s.createdAt == now
  {
  }

  /** With the OpenAI key set, the Anthropic outcome has no influence at all:
      in particular an OpenAI failure gives the placeholder even when Anthropic
      would have succeeded. */
  lemma NoCrossProviderRetry(c: Credentials, req: StoryRequest,
                             openAi: Result<StoryPayload, Exception>,
                             anthropic: Result<StoryPayload, Exception>,
                             anthropic': Result<StoryPayload, Exception>,
                             id: string, now: Instant)
    requires Present(c.openAiKey)
    ensures GenerateStory(c, req, openAi, anthropic, id, now) == GenerateStory(c, req, openAi, anthropic', id, now)
    ensures openAi.Failure? ==> GenerateStory(c, req, openAi, anthropic, id, now) == Placeholder(req, id, now)
  {
  }

  /** The generated story has its declared type exactly when the request's age
      group is one of the three brackets and, on the provider path, the
      provider's category is one of the four categories: neither is checked. */
  lemma GeneratedStoryWellFormedIff(c: Credentials, req: StoryRequest,
                                    openAi: Result<StoryPayload, Exception>,
                                    anthropic: Result<StoryPayload, Exception>,
                                    id: string, now: Instant)
    ensures var a := ProviderAttempt(c, openAi, anthropic);
            WellFormedStory(GenerateStory(c, req, openAi, anthropic, id, now))
            <==> ParseAgeGroup(req.ageGroup).Some? && (a.Success? ==> ParseCategory(a.value.category).Some?)
  {
  }

  /** A generated story has a non-empty title and a positive reading time
      exactly when it is the placeholder or the provider's reply has both: the
      placeholder always has them, a reply's values are copied unchecked. */
  lemma GeneratedStoryTitleAndTimeIff(c: Credentials, req: StoryRequest,
                                      openAi: Result<StoryPayload, Exception>,
                                      anthropic: Result<StoryPayload, Exception>,
                                      id: string, now: Instant)
    ensures var a := ProviderAttempt(c, openAi, anthropic);
            HasTitleAndReadingTime(GenerateStory(c, req, openAi, anthropic, id, now))
            <==> (a.Success? ==> a.value.title != "" && a.value.readingTime > 0)
  {
  }

  /** With no key configured the result is the placeholder, whose category is
      valid, whose reading time is five minutes, whose title contains the theme
      and whose text contains the life lesson. */
  lemma NoKeysGivesPlaceholder(req: StoryRequest, openAi: Result<StoryPayload, Exception>,
                               anthropic: Result<StoryPayload, Exception>, id: string, now: Instant)
    ensures var s := GenerateStory(Credentials("", "", ""), req, openAi, anthropic, id, now);
            ParseCategory(s.category).Some? && s.readingTime == 5
            && Contains(s.title, req.theme) && Contains(s.content, req.lifeLesson)
  {
  }

  // ---------------------------------------------------------------------------
  // Cover image
  // ---------------------------------------------------------------------------

  /** `StoryService.generateCoverImage`: `outcome` is what the image provider
      call resolves to.  It never rejects: without a key or on any failure it
      is the stock photograph, otherwise the returned artifact inlined. */
  function CoverImage(c: Credentials, outcome: Result<string, Exception>): (url: string)
    ensures ArtifactOf(url) == (if Present(c.stabilityKey) && outcome.Success? then Some(outcome.value) else None)
    ensures ArtifactOf(url).None? ==> url == StockImageUrl
  {
    ImageLocator(c.stabilityKey, outcome)
  }
}

=== FILE: text.dfy ===
/** String helpers: infix search, first-letter case changes and digits.  Strings are sequences of characters;
    case mapping covers ASCII letters only, which is all the fixed names use. */
module Text {

  /** `sub` occurs in `s` starting at index `i`. */
  predicate IsInfixAt(s: string, sub: string, i: nat) {
    i + |sub| <= |s| && s[i..i + |sub|] == sub
  }

  /** `sub` occurs somewhere in `s` (JavaScript's `s.includes(sub)`). */
  predicate Contains(s: string, sub: string) {
    exists i: nat | i <= |s| :: IsInfixAt(s, sub, i)
  }

  /** `s` begins with `p` (JavaScript's `s.startsWith(p)`). */
  predicate StartsWith(s: string, p: string) {
    |p| <= |s| && s[..|p|] == p
  }

  /** A string placed between two others is contained in the result. */
  lemma {:induction false} ContainsMiddle(a: string, b: string, c: string)
    ensures Contains(a + b + c, b)
  {
    var s := a + b + c;
    assert s[|a|..|a| + |b|] == b;
    assert IsInfixAt(s, b, |a|);
  }

  predicate IsLower(c: char) { 'a' <= c <= 'z' }

  predicate IsUpper(c: char) { 'A' <= c <= 'Z' }

  /** `toUpperCase` on one character, for the ASCII range. */
  function UpperChar(c: char): (u: char)
    ensures IsLower(c) ==> IsUpper(u) && u as int == c as int - 32
    ensures !IsLower(c) ==> u == c
  {
    if IsLower(c) then (c as int - 32) as char else c
  }

  /** `toLowerCase` on one character, for the ASCII range. */
  function LowerChar(c: char): (l: char)
    ensures IsUpper(c) ==> IsLower(l) && l as int == c as int + 32
    ensures !IsUpper(c) ==> l == c
  {
    if IsUpper(c) then (c as int + 32) as char else c
  }

  /** `s.charAt(0).toUpperCase() + s.slice(1)`. */
  function UpperFirst(s: string): (r: string)
    ensures |r| == |s|
    ensures |s| > 0 ==> r[0] == UpperChar(s[0]) && r[1..] == s[1..]
  {
    if |s| == 0 then "" else [UpperChar(s[0])] + s[1..]
  }

  /** `s.charAt(0).toLowerCase() + s.slice(1)`. */
  function LowerFirst(s: string): (r: string)
    ensures |r| == |s|
    ensures |s| > 0 ==> r[0] == LowerChar(s[0]) && r[1..] == s[1..]
  {
    if |s| == 0 then "" else [LowerChar(s[0])] + s[1..]
  }

  /** Capitalising a word that starts with a lower-case letter can be undone. */
  lemma LowerFirstUndoesUpperFirst(s: string)
    requires |s| > 0 ==> IsLower(s[0])
    ensures LowerFirst(UpperFirst(s)) == s
  {
  }

  predicate IsDigit(c: char) { '0' <= c <= '9' }

  /** The value of one decimal digit. */
  function DigitValue(c: char): (d: nat)
    requires IsDigit(c)
    ensures d < 10 && c as int == '0' as int + d
  {
    c as int - '0' as int
  }
}

=== FILE: types.dfy ===
/** The domain records of the application: stories, activities, donations and
    the two generation requests, with the fixed enumerations their fields use. */
module Types {
  import opened Wrappers

  // ---------------------------------------------------------------------------
  // Enumerations and their wire names
  // ---------------------------------------------------------------------------

  datatype StoryCategory = Bedtime | Educational | Adventure | Moral

  datatype AgeGroup = Ages3To5 | Ages6To8 | Ages9To12

  datatype StoryLength = Short | Medium | Long

  datatype ActivityKind =
    | Coloring | Puzzle | Drawing | Math | Letters | Words | Dictation | PaintByNumbers

  datatype Difficulty = Easy | Medium | Hard

  datatype DonationKind = Book | EducationalMaterial | Monetary

  datatype DonationStatus = Pending | Approved | Distributed

  function CategoryName(c: StoryCategory): string {
    match c
    case Bedtime => "bedtime"
    case Educational => "educational"
    case Adventure => "adventure"
    case Moral => "moral"
  }

  /** Recognises one of the four category names; anything else is not a category. */
  function ParseCategory(s: string): Option<StoryCategory> {
    if s == "bedtime" then Some(Bedtime)
    else if s == "educational" then Some(Educational)
    else if s == "adventure" then Some(Adventure)
    else if s == "moral" then Some(Moral)
    else None
  }

  function AgeGroupName(a: AgeGroup): string {
    match a
    case Ages3To5 => "3-5"
    case Ages6To8 => "6-8"
    case Ages9To12 => "9-12"
  }

  /** Recognises one of the three age brackets. */
  function ParseAgeGroup(s: string): Option<AgeGroup> {
    if s == "3-5" then Some(Ages3To5)
    else if s == "6-8" then Some(Ages6To8)
    else if s == "9-12" then Some(Ages9To12)
    else None
  }

  function LengthName(l: StoryLength): string {
    match l
    case Short => "short"
    case Medium => "medium"
    case Long => "long"
  }

  function KindName(k: ActivityKind): string {
    match k
    case Coloring => "coloring"
    case Puzzle => "puzzle"
    case Drawing => "drawing"
    case Math => "math"
    case Letters => "letters"
    case Words => "words"
    case Dictation => "dictation"
    case PaintByNumbers => "paint-by-numbers"
  }

  /** Every kind name starts with a lower-case letter and names one kind only. */
  lemma KindNamesAreDistinctLowerWords(k: ActivityKind, k': ActivityKind)
    ensures |KindName(k)| > 0 && 'a' <= KindName(k)[0] <= 'z'
    ensures KindName(k) == KindName(k') <==> k == k'
  {
  }

  /** Category names and parsing are mutually inverse on the four categories. */
  lemma CategoryNameRoundTrip(c: StoryCategory, s: string)
    ensures ParseCategory(CategoryName(c)) == Some(c)
    ensures ParseCategory(s) == Some(c) <==> s == CategoryName(c)
  {
  }

  /** Age-group names and parsing are mutually inverse on the three brackets. */
  lemma AgeGroupNameRoundTrip(a: AgeGroup, s: string)
    ensures ParseAgeGroup(AgeGroupName(a)) == Some(a)
    ensures ParseAgeGroup(s) == Some(a) <==> s == AgeGroupName(a)
  {
  }

  // ---------------------------------------------------------------------------
  // Records
  // ---------------------------------------------------------------------------

  /** A point in time (`new Date()`); only ever stored, never computed with. */
  datatype Instant = Instant(millis: int)

  /** A value thrown by a failed call: an `Error` carries a message, anything
      else thrown does not. */
  datatype Exception = ErrorWithMessage(message: string) | NonErrorValue

  /** The message a store records for a caught value:
      `error instanceof Error ? error.message : fallback`. */
  function MessageOr(e: Exception, fallback: string): (m: string)
    ensures e.ErrorWithMessage? ==> m == e.message
    ensures e.NonErrorValue? ==> m == fallback
  {
    match e
    case ErrorWithMessage(msg) => msg
    case NonErrorValue => fallback
  }

  /** A story.  `category` and `ageGroup` hold whatever string was stored at run
      time: the services copy the provider's category and cast the request's
      age group without checking either (see `WellFormedStory`). */
  datatype Story = Story(
    id: string,
    title: string,
    content: string,
    category: string,
    ageGroup: string,
    coverImage: Option<string>,
    audioUrl: Option<string>,
    lifeLesson: Option<string>,
    readingTime: int,
    createdAt: Instant)

  /** The story satisfies its declared type: one of the four categories and one
      of the three age brackets. */
  predicate WellFormedStory(s: Story) {
    ParseCategory(s.category).Some? && ParseAgeGroup(s.ageGroup).Some?
  }

  /** A story a reader can use: it has a title and a positive reading time.
      The declared type does not demand this; the placeholder provides it. */
  predicate HasTitleAndReadingTime(s: Story) {
    s.title != "" && s.readingTime > 0
  }

  /** One arithmetic exercise of the math activity. */
  datatype Problem = Problem(question: string, answer: int)

  /** The kind-specific fields of an activity's content object. */
  datatype Payload =
    | Palette(colors: seq<string>)
    | Problems(problems: seq<Problem>)
    | Alphabet(letters: seq<string>, words: seq<string>)
    | Jigsaw(pieces: int)
    | DrawingPrompt(prompt: string, tools: seq<string>)
    | Vocabulary(vocabulary: seq<string>)
    | Sentences(sentences: seq<string>)
    | ColorByNumber(colorMap: map<string, string>)
    | ProviderJson(json: string)  // any other object or array a provider returns, as its JSON text

  /** An activity's `content`, as the parsed JSON of a provider reply may give
      it: nothing (`undefined` or `null`), a primitive JSON value (a string,
      number or boolean, kept as its JSON text), or an object with
      kind-specific fields and an optional `imageUrl` property. */
  datatype Content = Absent | Primitive(json: string) | Object(body: Payload, imageUrl: Option<string>)

  /** An activity; unlike a story, its age group is an unrestricted string. */
  datatype Activity = Activity(
    id: string,
    title: string,
    kind: ActivityKind,
    difficulty: Difficulty,
    ageGroup: string,
    content: Content,
    instructions: string,
    createdAt: Instant)

  /** A donation before the database assigns `id` and `createdAt`. */
  datatype DonationDraft = DonationDraft(
    donorName: string,
    donorEmail: string,
    itemType: DonationKind,
    description: string,
    quantity: Option<int>,
    amount: Option<int>,
    status: DonationStatus)

  datatype Donation = Donation(
    id: string,
    donorName: string,
    donorEmail: string,
    itemType: DonationKind,
    description: string,
    quantity: Option<int>,
    amount: Option<int>,
    status: DonationStatus,
    createdAt: Instant)

  /** A story request: its age group is a free string, its length is fixed. */
  datatype StoryRequest = StoryRequest(
    theme: string,
    ageGroup: string,
    lifeLesson: string,
    length: StoryLength)

  /** An activity request: the theme is optional. */
  datatype ActivityRequest = ActivityRequest(
    kind: ActivityKind,
    ageGroup: string,
    difficulty: Difficulty,
    theme: Option<string>)

  /** The API keys read from the environment.  An unset variable and an empty
      one are both falsy, so both are modelled as "". */
  datatype Credentials = Credentials(openAiKey: string, anthropicKey: string, stabilityKey: string)

  predicate Present(key: string) { key != "" }
}

=== FILE: wrappers.dfy ===
/** Optional values and settled promises. */
module Wrappers {

  /** A field or variable that may hold nothing (`undefined` in the application). */
  datatype Option<+T> = None | Some(value: T)

  /** How an asynchronous call settles: resolved with a value or rejected with
      what was thrown. */
  datatype Result<+R, +E> = Success(value: R) | Failure(error: E)
}
